=== FILE: README.md ===
# Devotional shorts: feed activation, playback, moderation and upload in Dafny

A model of the client logic of a short-form vertical video feed with a
moderation gate. Six pieces are modelled as immutable datatypes and pure
transition functions:

- **Feed activation** (`Feed`, `ClientFeed.tsx`): a scroll offset becomes an
  active index by rounding half up; each rendered player is active exactly
  when its position equals that index. There is no clamping.
- **Playback unit** (`Player`, `VideoPlayer.tsx`): the `playing`, `muted`,
  `liked` and `downloading` flags, next to the video element's `paused` and
  `muted` flags, driven by activation, by the outcome of `play()` and by taps.
  The displayed like count and the download file name are included.
- **Feed and players together** (`Engine`): a scroll reaches exactly the
  players whose `isActive` prop flips. After mount, after any scroll, and
  after taps on the active player that the host honours, at most one player
  plays. A tap on an inactive player is not prevented and can make a second
  player report `playing` (`Engine.TapInactiveBreaksSinglePlayer`).
- **Moderation queue** (`Moderation`, `ModerationDashboard.tsx`): a decision
  maps to a status, the item is removed optimistically, the update is sent
  without a status guard, and the whole list is re-fetched on error.
- **Upload** (`Upload`, `upload/page.tsx`): the 50 MiB gate, the length
  limits of the two text inputs (measured in UTF-16 code units, in
  `TextLimit`), the extension and storage path, and the submit steps. The submit stops at the first
  failure and always inserts a `pending` row.
- **Home page** (`Home`, `app/page.tsx`): approved videos, newest first, with
  an empty state.

The content store is `Store`: a table of rows with a reference select
(filter by status, then sort newest first), an unguarded status update, and
an insert. Answers from the store, from authentication and from the host's
`play()` are parameters of the transitions. `Common` holds `Option` and an
order-preserving `Filter`. `Videos` holds the row type and the statuses.

Behaviour of the code that a reader might not expect:

- The scroll index is not clamped to the last video. Overscrolling past the
  end leaves no player active (`Feed.OverscrollLeavesNoneActive`).
- Status updates carry no "still pending" guard. An already banned row can
  be approved (`Moderation.NoPendingGuard`).
- A decision on an id that is no longer listed still sends the update.
- Typing more than the length limit allows keeps whole characters up to 50
  (title) or 200 (description) UTF-16 code units. An emoji above U+FFFF
  counts twice, so 26 of them are cut to 25
  (`Upload.EmojiTitleKeepsTwentyFive`).
- A late autoplay resolution is not discarded. Each event runs to completion
  here, so that race is left out.
- The player keeps only the boolean flags listed above. A refused autoplay
  just leaves `playing` false; no separate "blocked" state is recorded.

## Model

| member | source | states |
|---|---|---|
| Feed.ScrollIndex | src/components/feed/ClientFeed.tsx:15-17 | the index is the whole number of screens nearest the offset, halves rounding up: 2h·i ≤ 2s+h < 2h·(i+1) |
| Feed.ScrollIndexUnique | src/components/feed/ClientFeed.tsx:17 | any whole number meeting the rounding condition is the computed index |
| Feed.ScrollIndexOnSnap | src/components/feed/ClientFeed.tsx:17 | an offset of exactly k screens selects player k |
| Feed.Render | src/components/feed/ClientFeed.tsx:32-38 | one player per input video, in input order, keyed by the video id; a player is active iff its position equals the active index |
| Feed.ActiveCountIsOneOrZero | src/components/feed/ClientFeed.tsx:32-37 | exactly one player is active when the index is inside the feed and none when it is past the end |
| Feed.AtMostOneActive | src/components/feed/ClientFeed.tsx:36 | two active players are the same player |
| Feed.Mount | src/components/feed/ClientFeed.tsx:7 | the feed starts at index 0, so only the first video is active |
| Feed.OnScroll | src/components/feed/ClientFeed.tsx:14-21 | the list is kept, the new index meets the rounding condition, and the session changes iff the computed index differs from the current one |
| Feed.Signals | src/components/feed/ClientFeed.tsx:18-20 | the players whose `isActive` flips are only the old and new positions; there are none when the index did not move |
| Feed.SignalsAreFlips | src/components/feed/ClientFeed.tsx:32-37 | a position is signalled exactly when its rendered `isActive` differs between the old and the new index, in both directions |
| Feed.ScrollIdempotent | src/components/feed/ClientFeed.tsx:18-20 | repeating an offset changes nothing and signals no player |
| Feed.OverscrollLeavesNoneActive | src/components/feed/ClientFeed.tsx:17-19 | three videos, h=800, s=2500: the index is 3 and no player is active |
| Feed.ThirdScreenActivatesThird | src/components/feed/ClientFeed.tsx:17 | three videos, h=800, s=1600: the index is 2 and only the third video is active |
| Player.Initial | src/components/feed/VideoPlayer.tsx:23-26 | all four flags start false and agree with a paused, unmuted element |
| Player.OnActiveChange | src/components/feed/VideoPlayer.tsx:28-44 | activation leaves `playing` true iff play() resolved; a rejection is absorbed; a resolved play() leaves the element playing, so a unit that was out of sync is back in sync; deactivation pauses and clears `playing`; nothing else changes |
| Player.TogglePlay | src/components/feed/VideoPlayer.tsx:46-54 | `playing` becomes the element's paused flag from before the tap; a playing element is paused; other flags are kept |
| Player.TogglePlayTwice | src/components/feed/VideoPlayer.tsx:46-54 | when play() is honoured, a tap flips `playing`, keeps the flags in sync with the element, and two taps restore the unit |
| Player.TapRejectedLeavesOutOfSync | src/components/feed/VideoPlayer.tsx:47-49 | a refused tap-initiated play still shows `playing` while the element stays paused |
| Player.ToggleMute | src/components/feed/VideoPlayer.tsx:56-62 | the element's muted flag flips and is copied into `muted`; playback is untouched |
| Player.ToggleMuteTwice | src/components/feed/VideoPlayer.tsx:56-62 | muting twice restores the unit |
| Player.ToggleLike | src/components/feed/VideoPlayer.tsx:116 | only `liked` flips |
| Player.DisplayedLikes | src/components/feed/VideoPlayer.tsx:120 | the shown count is the stored count or one more, and one more exactly when liked |
| Player.LikeTwiceRestores | src/components/feed/VideoPlayer.tsx:116-120 | liking twice restores the unit and the count; one like moves the count by one |
| Player.OverlayAfterTap | src/components/feed/VideoPlayer.tsx:104-112 | after an honoured tap the overlay is shown exactly when it was hidden before: tapping the overlay hides it, tapping a playing video shows it |
| Player.OverlayAfterActivation | src/components/feed/VideoPlayer.tsx:28-44 | after deactivation the overlay is shown; after activation it is shown iff autoplay was refused |
| Player.DownloadName | src/components/feed/VideoPlayer.tsx:73 | the name starts with "devotional-", ends with ".mp4", and its length is that of the title, or of "video" when the title is empty, plus the fixed parts |
| Player.DownloadNameRoundTrip | src/components/feed/VideoPlayer.tsx:73 | the title reads back from between the prefix and suffix; an empty title reads back as "video" |
| Player.BeginDownload | src/components/feed/VideoPlayer.tsx:64-66 | a click sets `downloading` and touches nothing else; while downloading, another click does nothing |
| Player.FinishDownload | src/components/feed/VideoPlayer.tsx:67-87 | success and failure both clear `downloading` and leave playback, mute and like untouched; the file is offered iff the fetch succeeded, and then under exactly the name `Player.DownloadName` builds from the title |
| Player.DownloadRestoresUnit | src/components/feed/VideoPlayer.tsx:64-87 | a full download leaves the unit as it was before the click |
| Engine.MountScreen | src/components/feed/ClientFeed.tsx:32-37 | on mount only the first player may play, and it plays iff autoplay resolved; all units are in sync, unmuted, unliked and not downloading, over unmuted elements |
| Engine.Scroll | src/components/feed/ClientFeed.tsx:14-21 | a scroll changes only the players at the old and new index, and nothing at all when the index is unchanged; when it moves, the old player is paused and stops playing, and the new one plays iff autoplay resolved, with its element then actually playing; no player's mute, like or download flag, nor its element's mute, changes |
| Engine.ScrollPreservesGood | src/components/feed/ClientFeed.tsx:32-37 | after a scroll only the active player may play and every unit stays in sync |
| Engine.Tap | src/components/feed/VideoPlayer.tsx:98-105 | a tap changes only the tapped player, whose `playing` becomes its element's old paused flag; its mute, like and download flags and its element's mute stay as they were |
| Engine.TapActivePreservesGood | src/components/feed/VideoPlayer.tsx:46-54 | tapping the active player keeps the single-player invariant |
| Engine.TapInactiveBreaksSinglePlayer | src/components/feed/VideoPlayer.tsx:46-54 | nothing stops a tap on an inactive player, which then reports `playing` beside the active one |
| Engine.AtMostOnePlaying | src/components/feed/ClientFeed.tsx:36 | at most one player is playing, and none when the index is past the end |
| Store.InsertByTime | src/app/page.tsx:19 | inserting into a newest-first list keeps it newest first and adds exactly that row |
| Store.SortNewestFirst | src/app/page.tsx:19 | the result is newest first and a permutation of the input |
| Store.Query | src/app/page.tsx:18-19 | the select returns exactly the rows of the table with the status, each as often as stored, newest first |
| Store.UpdateStatus | src/components/admin/ModerationDashboard.tsx:48-51 | every row with the id gets the new status whatever its old one; other rows are untouched |
| Store.Insert | src/app/upload/page.tsx:60-68 | the table grows by one row carrying the draft's owner, title, description, URL and status, the given id and creation time, and a like count of 0; earlier rows are unchanged |
| Store.UpdateLeavesStatusView | src/components/admin/ModerationDashboard.tsx:48-51 | after updating an id to another status, a select by the old status no longer returns it |
| Store.UpdateKeepsOthers | src/components/admin/ModerationDashboard.tsx:48-51 | rows with other ids are still returned by the select |
| Moderation.ActionStatus | src/components/admin/ModerationDashboard.tsx:43 | approve maps to approved and ban to banned, never to pending |
| Moderation.ActionStatusNames | src/components/admin/ModerationDashboard.tsx:43 | the written texts are "approved" and "banned" |
| Moderation.Initial | src/components/admin/ModerationDashboard.tsx:18-19 | the queue starts empty and loading, so the dashboard shows the spinner |
| Moderation.BeginFetch | src/components/admin/ModerationDashboard.tsx:23 | a fetch sets loading and keeps the list |
| Moderation.CompleteFetch | src/components/admin/ModerationDashboard.tsx:30-35 | rows replace the list, null reads as empty, an error keeps the list, and loading ends in every case |
| Moderation.LoadingThenEmptyView | src/components/admin/ModerationDashboard.tsx:61-67 | the spinner shows from the start and during every fetch; a fetch returning null or no rows shows "no pending videos" |
| Moderation.FailedFetchKeepsView | src/components/admin/ModerationDashboard.tsx:30-35 | a failed fetch ends the spinner and shows the list from before |
| Moderation.Render | src/components/admin/ModerationDashboard.tsx:61-67 | spinner iff loading; "no pending videos" iff loaded and empty; otherwise cards for exactly the list |
| Moderation.RemoveId | src/components/admin/ModerationDashboard.tsx:46 | no item with the id remains, every other item remains, nothing new appears |
| Moderation.RemoveIdKeepsOrder | src/components/admin/ModerationDashboard.tsx:46 | removal distributes over concatenation, so the remaining items keep their relative order |
| Moderation.RemoveIdAbsent | src/components/admin/ModerationDashboard.tsx:46 | the list is unchanged iff the id is not listed |
| Moderation.HandleAction | src/components/admin/ModerationDashboard.tsx:42-59 | the update for the id is always sent; on success the list is the optimistic removal; on error the list is whatever the reload returns, or the removal if the reload fails, and loading ends |
| Moderation.Apply | src/components/admin/ModerationDashboard.tsx:48-51 | the store row with the id takes the decided status; every row differs from before in its status at most |
| Moderation.DecisionRemovesItem | src/components/admin/ModerationDashboard.tsx:46-51 | after a successful decision the id is gone locally, the other items remain, and a later pending select does not return it |
| Moderation.FailedDecisionReloads | src/components/admin/ModerationDashboard.tsx:53-58 | after a failed update the list is a fresh pending select, not the old list with the item re-inserted |
| Moderation.NoPendingGuard | src/components/admin/ModerationDashboard.tsx:48-51 | approving an id whose row is banned overwrites it to approved |
| Moderation.ApproveFirstOfTwo | src/components/admin/ModerationDashboard.tsx:42-51 | with A and B listed, approving A leaves exactly [B] |
| Upload.InitialForm | src/app/upload/page.tsx:9-13 | no file, empty texts, not uploading, no error, so the submit button is disabled |
| Upload.SelectFile | src/app/upload/page.tsx:17-28 | no pick changes nothing; a file over 50 MiB sets the error and keeps the previous file; any other file is taken and the error cleared |
| Upload.SelectedFileWithinLimit | src/app/upload/page.tsx:21-26 | a chosen file is never larger than 50·1024·1024 bytes |
| TextLimit.Utf16Length | src/app/upload/page.tsx:140 | the length `maxLength` measures: between the character count and twice it |
| TextLimit.Utf16LengthGrows | src/app/upload/page.tsx:140 | a longer prefix never measures fewer code units |
| TextLimit.Utf16LengthOfBmp | src/app/upload/page.tsx:140 | text inside the Basic Multilingual Plane measures exactly its character count |
| TextLimit.Cap | src/app/upload/page.tsx:140 | the kept text is a prefix of whole characters that fits in the limit, is all of the typed text when that fits, and would exceed the limit with one more character |
| TextLimit.CapIsLongest | src/app/upload/page.tsx:140 | no longer prefix of the typed text fits in the limit |
| TextLimit.CapOnBmpText | src/app/upload/page.tsx:140 | for text inside the Basic Multilingual Plane the limit keeps the first `limit` characters |
| Upload.EmojiTitleKeepsTwentyFive | src/app/upload/page.tsx:140 | 26 emoji above U+FFFF (52 code units) are cut to 25 |
| Upload.EditTitle | src/app/upload/page.tsx:133-141 | typing changes only the title; the title is the longest prefix of what was typed that fits in 50 UTF-16 code units |
| Upload.EditDescription | src/app/upload/page.tsx:146-152 | typing changes only the description; the description is the longest prefix that fits in 200 UTF-16 code units |
| Upload.EditIsIdempotent | src/app/upload/page.tsx:140-151 | re-entering a kept title or description keeps it unchanged |
| Upload.SubmitReenabledAfterRun | src/app/upload/page.tsx:157 | the submit button is disabled on the fresh page and enabled again after every submit that had a file, whatever step failed |
| Upload.Extension | src/app/upload/page.tsx:44 | the extension has no '.', is a suffix of the name, is the whole name when it has no '.', and otherwise follows its last '.' |
| Upload.StemDotExtension | src/app/upload/page.tsx:44 | a name with a '.' is its stem, a '.', and its extension |
| Upload.StoragePath | src/app/upload/page.tsx:45 | the path starts with the user id and a '/' |
| Upload.DistinctDrawsDistinctPaths | src/app/upload/page.tsx:45 | two different random texts give two different paths for the same user and extension |
| Upload.PathKeepsExtension | src/app/upload/page.tsx:44-45 | the extension of the storage path is the file's extension |
| Upload.PathStartsWithOwner | src/app/upload/page.tsx:45 | for an id without '/', the text before the first '/' is the owner |
| Upload.Message | src/app/upload/page.tsx:78 | the shown message is the error's own when it has one, and "An error occurred during upload." when it is empty |
| Upload.Steps | src/app/upload/page.tsx:39-70 | no user means no store call; an upload error means no insert; otherwise the upload then the insert of the pending draft, with the insert's error |
| Upload.HandleUpload | src/app/upload/page.tsx:30-82 | no file is a no-op; otherwise uploading ends false on every path and the inputs are kept; the calls made are those of the steps; the page goes home iff no step failed, and a failed step's message is shown: not signed in, upload error (one call), insert error (two calls) |
| Upload.FailureIsReported | src/app/upload/page.tsx:76-78 | a submit that does not go home always shows a non-empty error, the fallback text for an upload error without a message |
| Upload.InsertedRowIsPending | src/app/upload/page.tsx:60-68 | every inserted row is pending, owned by the signed-in user, points at the public URL of the uploaded path and carries the form text |
| Upload.UploadedVideoIsQueued | src/app/upload/page.tsx:67 | a newly inserted pending row is returned by the pending select and not by the approved one |
| Home.FeedPage | src/app/page.tsx:29-44 | null or empty rows give the empty state; otherwise the feed gets the rows unchanged |
| Home.ErrorDoesNotAbort | src/app/page.tsx:21-29 | the error flag does not change the page |
| Home.FeedShowsApprovedNewestFirst | src/app/page.tsx:9-19 | the feed gets only approved videos, newest first, and all of them; the empty state shows iff none is approved |
| Home.HiddenVideosNeverReachFeed | src/app/page.tsx:18 | a pending or banned video never reaches the feed |
| Home.FirstVideoStartsActive | src/app/page.tsx:44 | on a non-empty feed page only the first video starts active |

## Left out

- Store, storage and authentication calls (select, update, insert, file upload, `getPublicUrl`, `getUser`). Their answers are parameters: a result sequence, an error flag or message, a user id, and a URL function. The store itself is the reference `Store` module.
- The DOM and the video element's implementation: `play()` promises, blob URLs, the anchor click, `alert`, `console`. Only their outcomes enter as event parameters.
- Async interleavings. Events run to completion one at a time. So the model omits three races: a late autoplay resolution after deactivation, two moderators deciding the same id, and the un-awaited re-fetch in `handleAction` overlapping other events.
- Pixel arithmetic on floats. Offsets are non-negative whole pixels and heights are whole pixels above zero. NaN, Infinity and fractional offsets are not modelled. Nor is rubber-band overscroll above the first video: an offset below minus half a screen rounds to index -1, the handler at src/components/feed/ClientFeed.tsx:17-19 stores it, and then no player is active.
- The `Math.random()` part of the storage path. It is an opaque text parameter.
- The null-ref branches (`videoRef.current?.…`, `containerRef.current`). The model assumes the element is mounted.
- The login and admin pages. They are authentication plumbing over foreign calls.
- JSX markup, styling, routing (`router.push`/`refresh`, modelled only as a "went home" flag), the profile join of the feed select, and the placeholder report, comment and follow buttons.
- Player.OnActiveChange: a refused autoplay is modelled as leaving the element paused. The code only clears `playing` and relies on the host for the element's state.
- Store.SortNewestFirst: breaks ties among equal `created_at` values in one fixed way. The store leaves that order open. The contract of `Store.Query` (`Store.IsAnswer`) holds of any newest-first permutation.
- `created_at` is a whole-number timestamp here. The page receives it as a timestamp string that the store orders.
- The title input is `required`, so the browser also refuses a submit with an empty title. That form validation is not modelled; `Upload.CanSubmit` covers only the button's `disabled` condition.
- Upload.EditTitle: models the browser's `maxLength` as keeping the longest prefix of whole characters that fits in 50 UTF-16 code units, and the description the same at 200. A character above U+FFFF is never split into half a surrogate pair. Grapheme clusters (a base letter with combining marks, emoji sequences) are not kept together, and browsers differ on that.

=== FILE: common.dfy ===
/** Small shared vocabulary: an optional value and an order-preserving filter
    over sequences, as the components use on lists of videos. */
module Common {

  datatype Option<+T> = None | Some(value: T) {
    /** The value, or `default` when absent (as when a null list is read
        as empty). */
    function GetOr(default: T): T {
      match this
      case Some(v) => v
      case None => default
    }
  }

  /** The elements of `s` that satisfy `keep`, in their original order. */
  function Filter<T>(s: seq<T>, keep: T -> bool): (r: seq<T>)
    ensures |r| <= |s|
    ensures forall i :: 0 <= i < |r| ==> r[i] in s && keep(r[i])
    ensures forall i :: 0 <= i < |s| && keep(s[i]) ==> s[i] in r
    ensures multiset(r) <= multiset(s)
  {
    if |s| == 0 then []
    else
      assert s == [s[0]] + s[1..];
      if keep(s[0]) then [s[0]] + Filter(s[1..], keep)
    else Filter(s[1..], keep)
  }

  /** Filtering distributes over concatenation: the survivors of `a` still
      precede the survivors of `b`, so relative order is kept. */
  lemma {:induction false} FilterAppend<T>(a: seq<T>, b: seq<T>, keep: T -> bool)
    ensures Filter(a + b, keep) == Filter(a, keep) + Filter(b, keep)
  {
    if |a| == 0 {
      assert a + b == b;
    } else {
      assert (a + b)[1..] == a[1..] + b;
      FilterAppend(a[1..], b, keep);
    }
  }

  /** A filter that keeps everything returns its input unchanged. */
  lemma {:induction false} FilterKeepsAll<T>(s: seq<T>, keep: T -> bool)
    requires forall i :: 0 <= i < |s| ==> keep(s[i])
    ensures Filter(s, keep) == s
  {
    if |s| > 0 {
      assert keep(s[0]);
      FilterKeepsAll(s[1..], keep);
    }
  }

  /** The filter removes exactly the elements `keep` rejects: the result has
      the input's length iff nothing was rejected. */
  lemma {:induction false} FilterLengthIff<T>(s: seq<T>, keep: T -> bool)
    ensures |Filter(s, keep)| == |s| <==> forall i :: 0 <= i < |s| ==> keep(s[i])
  {
    if |s| > 0 {
      FilterLengthIff(s[1..], keep);
      if !keep(s[0]) {
        assert |Filter(s, keep)| < |s|;
      }
      if forall i :: 0 <= i < |s[1..]| ==> keep(s[1..][i]) {
        if keep(s[0]) {
          assert forall i :: 0 <= i < |s| ==> keep(s[i]) by {
            forall i | 0 <= i < |s| ensures keep(s[i]) {
              if i > 0 { assert s[i] == s[1..][i - 1]; }
            }
          }
        }
      } else {
        var i :| 0 <= i < |s[1..]| && !keep(s[1..][i]);
        assert s[i + 1] == s[1..][i];
      }
    }
  }
}

=== FILE: engine.dfy ===
/** The feed and its players together: `ClientFeed` owns the active index,
    each `VideoPlayer` owns a playback unit, and a change of index reaches
    exactly the players whose `isActive` prop flips. Each event (a scroll, a
    tap, a settled `play()`) is processed to completion before the next. */
module Engine {
  import opened Videos
  import Feed
  import opened Player

  datatype Screen = Screen(session: Feed.Session, units: seq<Unit>)

  ghost predicate WellFormed(m: Screen) {
    |m.units| == |m.session.videos|
  }

  /** Only the active position may be playing. */
  ghost predicate OnlyActivePlays(m: Screen) {
    forall p :: 0 <= p < |m.units| && m.units[p].flags.playing ==> p == m.session.activeIndex
  }

  /** Every unit's flags agree with its element. */
  ghost predicate AllInSync(m: Screen) {
    forall p :: 0 <= p < |m.units| ==> InSync(m.units[p])
  }

  ghost predicate Good(m: Screen) {
    WellFormed(m) && OnlyActivePlays(m) && AllInSync(m)
  }

  /** Mounting the feed: index 0, and every player's effect runs once with
      its initial `isActive`, so the first asks to play and the rest pause. */
  function MountScreen(videos: seq<Video>, play: PlayOutcome): (m: Screen)
    ensures m.session == Feed.Mount(videos) && m.session.activeIndex == 0
    ensures Good(m)
    ensures forall p :: 1 <= p < |m.units| ==> !m.units[p].flags.playing
    ensures |videos| > 0 ==> (m.units[0].flags.playing <==> play == Resolved)
    ensures forall p :: 0 <= p < |m.units| ==>
              && !m.units[p].flags.muted && !m.units[p].flags.liked
              && !m.units[p].flags.downloading && !m.units[p].element.muted
  {
    var units := seq(|videos|, p requires 0 <= p < |videos| => OnActiveChange(Initial(), p == 0, play));
    assert forall p :: 0 <= p < |units| ==> units[p] == OnActiveChange(Initial(), p == 0, play);
    Screen(Feed.Mount(videos), units)
  }

  /** A scroll event. When the computed index moves, the players at the old
      and the new index (where they exist) receive their effect with the new
      `isActive`; the newly active one asks to play and gets `play`. */
  function Scroll(m: Screen, scrollTop: nat, height: nat, play: PlayOutcome): (m': Screen)
    requires height > 0
    requires WellFormed(m)
    ensures WellFormed(m')
    ensures m'.session == Feed.OnScroll(m.session, scrollTop, height)
    ensures forall p :: 0 <= p < |m.units| && p !in Feed.Signals(|m.units|, m.session.activeIndex, m'.session.activeIndex) ==>
              m'.units[p] == m.units[p]
    ensures m'.session.activeIndex == m.session.activeIndex ==> m' == m
    ensures var a, b := m.session.activeIndex, m'.session.activeIndex;
            a != b && a < |m.units| ==> !m'.units[a].flags.playing && m'.units[a].element.paused
    ensures var a, b := m.session.activeIndex, m'.session.activeIndex;
            a != b && b < |m.units| ==>
              && (m'.units[b].flags.playing <==> play == Resolved)
              && (play == Resolved ==> !m'.units[b].element.paused)
    ensures forall p :: 0 <= p < |m.units| ==>
              && m'.units[p].flags.muted == m.units[p].flags.muted
              && m'.units[p].flags.liked == m.units[p].flags.liked
              && m'.units[p].flags.downloading == m.units[p].flags.downloading
              && m'.units[p].element.muted == m.units[p].element.muted
  {
    var s' := Feed.OnScroll(m.session, scrollTop, height);
    var sig := Feed.Signals(|m.units|, m.session.activeIndex, s'.activeIndex);
    var units' := seq(|m.units|, p requires 0 <= p < |m.units| =>
      if p in sig then OnActiveChange(m.units[p], p == s'.activeIndex, play) else m.units[p]);
    if s'.activeIndex == m.session.activeIndex then
      assert units' == m.units;
      m
    else
      Screen(s', units')
  }

  /** Scrolling keeps every invariant: afterwards at most the active player
      plays, and none does when the index has run off the end. */
  lemma ScrollPreservesGood(m: Screen, scrollTop: nat, height: nat, play: PlayOutcome)
    requires height > 0
    requires Good(m)
    ensures Good(Scroll(m, scrollTop, height, play))
  {
  }

  /** A tap on player `p`. */
  function Tap(m: Screen, p: nat, play: PlayOutcome): (m': Screen)
    requires WellFormed(m) && p < |m.units|
    ensures WellFormed(m') && m'.session == m.session
    ensures m'.units[p].flags.playing == m.units[p].element.paused
    ensures forall q :: 0 <= q < |m.units| && q != p ==> m'.units[q] == m.units[q]
    ensures m'.units[p].flags.muted == m.units[p].flags.muted && m'.units[p].flags.liked == m.units[p].flags.liked
    ensures m'.units[p].flags.downloading == m.units[p].flags.downloading
    ensures m'.units[p].element.muted == m.units[p].element.muted
  {
    m.(units := m.units[p := TogglePlay(m.units[p], play)])
  }

  /** Tapping the active player, when the element honours it, keeps every
      invariant. */
  lemma TapActivePreservesGood(m: Screen)
    requires Good(m) && m.session.activeIndex < |m.units|
    ensures Good(Tap(m, m.session.activeIndex, Resolved))
  {
    TogglePlayTwice(m.units[m.session.activeIndex]);
  }

  /** The component does not stop a tap on a player that is not active: such a
      tap on a paused player makes a second player report `playing`. */
  lemma TapInactiveBreaksSinglePlayer(m: Screen, p: nat)
    requires Good(m) && p < |m.units| && p != m.session.activeIndex
    ensures Tap(m, p, Resolved).units[p].flags.playing
    ensures !OnlyActivePlays(Tap(m, p, Resolved))
  {
    assert !m.units[p].flags.playing;
  }

  /** How many units are playing. */
  function PlayingCount(us: seq<Unit>): nat {
    if |us| == 0 then 0
    else (if us[0].flags.playing then 1 else 0) + PlayingCount(us[1..])
  }

  lemma {:induction false} PlayingCountBound(us: seq<Unit>, a: nat)
    requires forall p :: 0 <= p < |us| && us[p].flags.playing ==> p == a
    ensures PlayingCount(us) <= 1
    ensures a >= |us| ==> PlayingCount(us) == 0
  {
    if |us| > 0 {
      if a == 0 {
        assert forall p :: 0 <= p < |us[1..]| ==> !us[1..][p].flags.playing by {
          forall p | 0 <= p < |us[1..]| ensures !us[1..][p].flags.playing {
            assert us[1..][p] == us[p + 1];
          }
        }
        PlayingCountBound(us[1..], |us|);
      } else {
        assert !us[0].flags.playing;
        assert forall p :: 0 <= p < |us[1..]| && us[1..][p].flags.playing ==> p == a - 1 by {
          forall p | 0 <= p < |us[1..]| && us[1..][p].flags.playing ensures p == a - 1 {
            assert us[1..][p] == us[p + 1];
          }
        }
        PlayingCountBound(us[1..], a - 1);
      }
    }
  }

  /** At most one player is playing in every good screen, and none when the
      active index is past the last video. */
  lemma AtMostOnePlaying(m: Screen)
    requires Good(m)
    ensures PlayingCount(m.units) <= 1
    ensures m.session.activeIndex >= |m.units| ==> PlayingCount(m.units) == 0
  {
    PlayingCountBound(m.units, m.session.activeIndex);
  }
}

=== FILE: feed.dfy ===
/** The scroll-driven activation logic of the feed (`ClientFeed`): a scroll
    offset becomes an active index, and each rendered player is told whether
    its position equals that index. Offsets and heights are whole pixels. */
module Feed {
  import opened Videos

  /** The offset divided by the screen height, rounded: the nearest whole
      number of screens, halves rounding up. */
  function ScrollIndex(scrollTop: nat, height: nat): (i: nat)
    requires height > 0
    ensures 2 * height * i <= 2 * scrollTop + height < 2 * height * (i + 1)
  {
    (2 * scrollTop + height) / (2 * height)
  }

  /** The rounding condition pins the index down: only one whole number lies
      within half a screen (inclusive below, exclusive above) of the offset. */
  lemma ScrollIndexUnique(scrollTop: nat, height: nat, j: nat)
    requires height > 0
    requires 2 * height * j <= 2 * scrollTop + height < 2 * height * (j + 1)
    ensures ScrollIndex(scrollTop, height) == j
  {
  }

  /** An offset of exactly `k` screens selects player `k`. */
  lemma ScrollIndexOnSnap(k: nat, height: nat)
    requires height > 0
    ensures ScrollIndex(k * height, height) == k
  {
    ScrollIndexUnique(k * height, height, k);
  }

  /** The props one `VideoPlayer` is rendered with. */
  datatype PlayerProps = PlayerProps(key: string, video: Video, isActive: bool)

  /** The rendered list: one player per video, in order, keyed by its id,
      active iff its position is the active index. */
  function Render(videos: seq<Video>, activeIndex: nat): (ps: seq<PlayerProps>)
    ensures |ps| == |videos|
    ensures forall p :: 0 <= p < |ps| ==> ps[p].video == videos[p] && ps[p].key == videos[p].id
    ensures forall p :: 0 <= p < |ps| ==> (ps[p].isActive <==> p == activeIndex)
  {
    seq(|videos|, p requires 0 <= p < |videos| => PlayerProps(videos[p].id, videos[p], p == activeIndex))
  }

  /** How many of the rendered players are active. */
  function ActiveCount(ps: seq<PlayerProps>): nat {
    if |ps| == 0 then 0
    else (if ps[0].isActive then 1 else 0) + ActiveCount(ps[1..])
  }

  /** Exactly one player is active when the index is inside the feed and none
      is when it has run off the end; there is no clamping. */
  lemma {:induction false} ActiveCountIsOneOrZero(videos: seq<Video>, activeIndex: nat)
    ensures ActiveCount(Render(videos, activeIndex)) == if activeIndex < |videos| then 1 else 0
  {
    CountOfIndexed(Render(videos, activeIndex), activeIndex);
  }

  lemma {:induction false} CountOfIndexed(ps: seq<PlayerProps>, a: nat)
    requires forall p :: 0 <= p < |ps| ==> (ps[p].isActive <==> p == a)
    ensures ActiveCount(ps) == if a < |ps| then 1 else 0
  {
    if |ps| > 0 {
      if a == 0 {
        assert forall p :: 0 <= p < |ps[1..]| ==> !ps[1..][p].isActive by {
          forall p | 0 <= p < |ps[1..]| ensures !ps[1..][p].isActive {
            assert ps[1..][p] == ps[p + 1];
          }
        }
        NoneActive(ps[1..]);
      } else {
        assert forall p :: 0 <= p < |ps[1..]| ==> (ps[1..][p].isActive <==> p == a - 1) by {
          forall p | 0 <= p < |ps[1..]| ensures ps[1..][p].isActive <==> p == a - 1 {
            assert ps[1..][p] == ps[p + 1];
          }
        }
        CountOfIndexed(ps[1..], a - 1);
      }
    }
  }

  lemma {:induction false} NoneActive(ps: seq<PlayerProps>)
    requires forall p :: 0 <= p < |ps| ==> !ps[p].isActive
    ensures ActiveCount(ps) == 0
  {
    if |ps| > 0 {
      assert forall p :: 0 <= p < |ps[1..]| ==> !ps[1..][p].isActive by {
        forall p | 0 <= p < |ps[1..]| ensures !ps[1..][p].isActive {
          assert ps[1..][p] == ps[p + 1];
        }
      }
      NoneActive(ps[1..]);
    }
  }

  /** At most one rendered player is active, whatever the index. */
  lemma AtMostOneActive(videos: seq<Video>, activeIndex: nat, p: nat, q: nat)
    requires p < |videos| && q < |videos|
    requires Render(videos, activeIndex)[p].isActive && Render(videos, activeIndex)[q].isActive
    ensures p == q
  {
  }

  /** The feed's own state: the list it was given and the active index. */
  datatype Session = Session(videos: seq<Video>, activeIndex: nat)

  /** `useState(0)`: a freshly mounted feed starts at the first video. */
  function Mount(videos: seq<Video>): (s: Session)
    ensures s.videos == videos
    ensures forall p :: 0 <= p < |videos| ==> (Render(s.videos, s.activeIndex)[p].isActive <==> p == 0)
  {
    Session(videos, 0)
  }

  /** `handleScroll`: recompute the index and store it only if it differs. */
  function OnScroll(s: Session, scrollTop: nat, height: nat): (s': Session)
    requires height > 0
    ensures s'.videos == s.videos
    ensures 2 * height * s'.activeIndex <= 2 * scrollTop + height < 2 * height * (s'.activeIndex + 1)
    ensures s' == s <==> s.activeIndex == ScrollIndex(scrollTop, height)
  {
    var i := ScrollIndex(scrollTop, height);
    if i != s.activeIndex then s.(activeIndex := i) else s
  }

  /** The positions whose `isActive` prop flips when the index moves from
      `before` to `after`: these are the players whose `[isActive]` effect
      runs again (an activation or a deactivation signal). */
  function Signals(n: nat, before: nat, after: nat): (ps: set<nat>)
    ensures ps <= {before, after}
    ensures forall p :: p in ps ==> p < n
    ensures before == after ==> ps == {}
    ensures before != after ==> forall p :: p < n && (p == before || p == after) ==> p in ps
  {
    if before == after then {}
    else (if before < n then {before} else {}) + (if after < n then {after} else {})
  }

  /** The signalled positions are exactly the rendered players whose
      `isActive` prop differs between the two indices. */
  lemma SignalsAreFlips(vs: seq<Video>, before: nat, after: nat, p: nat)
    requires p < |vs|
    ensures p in Signals(|vs|, before, after) <==>
              Render(vs, before)[p].isActive != Render(vs, after)[p].isActive
  {
  }

  /** Repeating the same offset changes nothing and signals no player. */
  lemma ScrollIdempotent(s: Session, scrollTop: nat, height: nat)
    requires height > 0
    ensures OnScroll(OnScroll(s, scrollTop, height), scrollTop, height) == OnScroll(s, scrollTop, height)
    ensures var s1 := OnScroll(s, scrollTop, height);
            Signals(|s1.videos|, s1.activeIndex, OnScroll(s1, scrollTop, height).activeIndex) == {}
  {
  }

  /** Three videos, screens of 800 pixels, offset 2500: the index is 3 and
      no player is active. */
  lemma OverscrollLeavesNoneActive(vs: seq<Video>)
    requires |vs| == 3
    ensures OnScroll(Mount(vs), 2500, 800).activeIndex == 3
    ensures forall p :: 0 <= p < 3 ==> !Render(vs, OnScroll(Mount(vs), 2500, 800).activeIndex)[p].isActive
  {
  }

  /** Three videos, screens of 800 pixels, offset 1600: only the third video
      is active. */
  lemma ThirdScreenActivatesThird(vs: seq<Video>)
    requires |vs| == 3
    ensures OnScroll(Mount(vs), 1600, 800).activeIndex == 2
    ensures forall p :: 0 <= p < 3 ==> (Render(vs, OnScroll(Mount(vs), 1600, 800).activeIndex)[p].isActive <==> p == 2)
  {
  }
}

=== FILE: home.dfy ===
/** The home page (`FeedPage`): select the approved videos newest first,
    log a query error without stopping, and show the empty state when there
    is nothing to show; otherwise hand the rows, unchanged, to the feed. */
module Home {
  import opened Common
  import opened Videos
  import Store
  import Feed

  /** The select's answer: rows (possibly null) and whether an error came
      back alongside. */
  datatype Answer = Answer(data: Option<seq<Video>>, failed: bool)

  datatype Page = NoVideosYet | FeedView(initialVideos: seq<Video>)

  function FeedPage(a: Answer): (p: Page)
    ensures p.NoVideosYet? <==> a.data.None? || |a.data.value| == 0
    ensures p.FeedView? ==> p.initialVideos == a.data.value
  {
    // An error is only logged; the empty check below decides.
    if a.data.None? || |a.data.value| == 0 then NoVideosYet
    else FeedView(a.data.value)
  }

  /** The error flag never changes the page: only the rows do. */
  lemma ErrorDoesNotAbort(data: Option<seq<Video>>)
    ensures FeedPage(Answer(data, true)) == FeedPage(Answer(data, false))
  {
  }

  /** The home page over a store that answers its select: the feed receives
      only approved videos, newest first, and every approved video; an empty
      state is shown exactly when the store holds no approved video. */
  lemma FeedShowsApprovedNewestFirst(t: Store.Table)
    ensures var p := FeedPage(Answer(Some(Store.Query(t, Approved)), false));
            && (p.NoVideosYet? <==> forall i :: 0 <= i < |t| ==> t[i].status != Approved)
            && (p.FeedView? ==>
                  && NewestFirst(p.initialVideos)
                  && (forall i :: 0 <= i < |p.initialVideos| ==> IsPubliclyVisible(p.initialVideos[i]))
                  && (forall i :: 0 <= i < |t| && IsPubliclyVisible(t[i]) ==> t[i] in p.initialVideos))
  {
  }

  /** A video that is pending or banned is never handed to the feed. */
  lemma HiddenVideosNeverReachFeed(t: Store.Table, v: Video)
    requires v.status != Approved
    ensures var p := FeedPage(Answer(Some(Store.Query(t, Approved)), false));
            p.FeedView? ==> v !in p.initialVideos
  {
  }

  /** On a non-empty feed page only the first video starts active. */
  lemma FirstVideoStartsActive(a: Answer)
    requires FeedPage(a).FeedView?
    ensures var vs := FeedPage(a).initialVideos;
            var s := Feed.Mount(vs);
            && Feed.Render(vs, s.activeIndex)[0].isActive
            && forall p :: 1 <= p < |vs| ==> !Feed.Render(vs, s.activeIndex)[p].isActive
  {
  }
}

=== FILE: moderation.dfy ===
/** The moderator's queue (`ModerationDashboard`): a local list of pending
    videos fetched from the store, an optimistic removal on each decision,
    and a full re-fetch when the store rejects the update. */
module Moderation {
  import opened Common
  import opened Videos
  import Store

  datatype Action = Approve | Ban

  /** The status an action writes. */
  function ActionStatus(a: Action): (s: Status)
    ensures s != Pending
    ensures a == Approve <==> s == Approved
    ensures a == Ban <==> s == Banned
  {
    match a
    case Approve => Approved
    case Ban => Banned
  }

  /** The two actions write different statuses, under the names the store
      uses. */
  lemma ActionStatusNames()
    ensures StatusName(ActionStatus(Approve)) == "approved"
    ensures StatusName(ActionStatus(Ban)) == "banned"
    ensures ActionStatus(Approve) != ActionStatus(Ban)
  {
  }

  datatype Queue = Queue(videos: seq<Video>, loading: bool)

  /** The dashboard's starting state: no videos, loading. */
  function Initial(): (q: Queue)
    ensures |q.videos| == 0 && q.loading
    ensures Render(q).Spinner?
  {
    Queue([], true)
  }

  /** What the store answered to the pending select: rows (possibly null)
      or an error. */
  datatype FetchResult = Fetched(data: Option<seq<Video>>) | FetchFailed

  /** `fetchPendingVideos` up to its await. */
  function BeginFetch(q: Queue): (q': Queue)
    ensures q'.loading && q'.videos == q.videos
  {
    q.(loading := true)
  }

  /** `fetchPendingVideos` after its await: rows replace the list (null
      reads as empty), an error keeps the list, and loading ends either way. */
  function CompleteFetch(q: Queue, r: FetchResult): (q': Queue)
    ensures !q'.loading
    ensures r.FetchFailed? ==> q'.videos == q.videos
    ensures r.Fetched? && r.data.Some? ==> q'.videos == r.data.value
    ensures r.Fetched? && r.data.None? ==> q'.videos == []
  {
    match r
    case Fetched(data) => Queue(data.GetOr([]), false)
    case FetchFailed => q.(loading := false)
  }

  /** What the dashboard shows. */
  datatype View = Spinner | NoPendingVideos | Cards(videos: seq<Video>)

  function Render(q: Queue): (v: View)
    ensures v.Spinner? <==> q.loading
    ensures v.NoPendingVideos? <==> !q.loading && |q.videos| == 0
    ensures v.Cards? ==> v.videos == q.videos && |v.videos| > 0
  {
    if q.loading then Spinner
    else if |q.videos| == 0 then NoPendingVideos
    else Cards(q.videos)
  }

  /** The dashboard shows the spinner until the first fetch completes, and
      "no pending videos" after a fetch that returned null or no rows. */
  lemma LoadingThenEmptyView(q: Queue, r: FetchResult)
    requires r == Fetched(None) || r == Fetched(Some([]))
    ensures Render(Initial()).Spinner?
    ensures Render(BeginFetch(q)).Spinner?
    ensures Render(CompleteFetch(BeginFetch(q), r)).NoPendingVideos?
  {
  }

  /** A failed fetch after a load ends the spinner and shows the list that
      was there before. */
  lemma FailedFetchKeepsView(q: Queue)
    requires |q.videos| > 0
    ensures Render(CompleteFetch(BeginFetch(q), FetchFailed)) == Cards(q.videos)
  {
  }

  /** The optimistic removal: the list without the items carrying `id`. */
  function RemoveId(vs: seq<Video>, id: string): (r: seq<Video>)
    ensures forall i :: 0 <= i < |r| ==> r[i].id != id && r[i] in vs
    ensures forall i :: 0 <= i < |vs| && vs[i].id != id ==> vs[i] in r
    ensures |r| <= |vs|
  {
    Filter(vs, OtherThan(id))
  }

  /** The removal keeps the order of the remaining items: removing from a
      concatenation is removing from each part. */
  lemma RemoveIdKeepsOrder(a: seq<Video>, b: seq<Video>, id: string)
    ensures RemoveId(a + b, id) == RemoveId(a, id) + RemoveId(b, id)
  {
    FilterAppend(a, b, OtherThan(id));
  }

  /** Removing an id that is not listed changes nothing; removing one that
      is listed shortens the list. */
  lemma RemoveIdAbsent(vs: seq<Video>, id: string)
    ensures (forall i :: 0 <= i < |vs| ==> vs[i].id != id) <==> RemoveId(vs, id) == vs
  {
    FilterLengthIff(vs, OtherThan(id));
    if forall i :: 0 <= i < |vs| ==> vs[i].id != id {
      FilterKeepsAll(vs, OtherThan(id));
    }
  }

  /** The status update the dashboard sends to the store. */
  datatype Update = Update(id: string, status: Status)

  /** `handleAction`: remove the item locally, send the update for the id
      (whether or not it was listed, whatever its status), and on an update
      error reload the whole list with `refetch` as the store's answer. */
  function HandleAction(q: Queue, id: string, a: Action, updateOk: bool, refetch: FetchResult)
    : (r: (Queue, Update))
    ensures r.1 == Update(id, ActionStatus(a))
    ensures updateOk ==> r.0 == q.(videos := RemoveId(q.videos, id))
    ensures !updateOk ==> !r.0.loading
    ensures !updateOk && refetch.Fetched? ==> r.0.videos == refetch.data.GetOr([])
    ensures !updateOk && refetch.FetchFailed? ==> r.0.videos == RemoveId(q.videos, id)
  {
    var optimistic := q.(videos := RemoveId(q.videos, id));
    var sent := Update(id, ActionStatus(a));
    if updateOk then (optimistic, sent)
    else (CompleteFetch(BeginFetch(optimistic), refetch), sent)
  }

  /** Applies the decision's update to the store. */
  function Apply(t: Store.Table, u: Update): (t': Store.Table)
    ensures |t'| == |t|
    ensures forall i :: 0 <= i < |t| ==> t'[i].status == (if t[i].id == u.id then u.status else t[i].status)
    ensures forall i :: 0 <= i < |t| ==> t'[i].id == t[i].id && t'[i].createdAt == t[i].createdAt
    ensures forall i :: 0 <= i < |t| ==> t'[i] == t[i].(status := t'[i].status)
  {
    Store.UpdateStatus(t, u.id, u.status)
  }

  /** A successful decision: the item is gone from the local list, every
      other item keeps its place, and a later pending select no longer
      returns the id. */
  lemma DecisionRemovesItem(q: Queue, t: Store.Table, id: string, a: Action, refetch: FetchResult)
    ensures var (q', u) := HandleAction(q, id, a, true, refetch);
            && (forall i :: 0 <= i < |q'.videos| ==> q'.videos[i].id != id)
            && (forall i :: 0 <= i < |q.videos| && q.videos[i].id != id ==> q.videos[i] in q'.videos)
            && (forall i :: 0 <= i < |Store.Query(Apply(t, u), Pending)| ==>
                  Store.Query(Apply(t, u), Pending)[i].id != id)
  {
    Store.UpdateLeavesStatusView(t, id, Pending, ActionStatus(a));
  }

  /** A failed decision followed by a successful reload shows exactly the
      store's pending rows; the removed item is not put back at its old
      position but wherever (and if) the store returns it. */
  lemma FailedDecisionReloads(q: Queue, t: Store.Table, id: string, a: Action)
    ensures var (q', _) := HandleAction(q, id, a, false, Fetched(Some(Store.Query(t, Pending))));
            && !q'.loading
            && Store.IsAnswer(t, Pending, q'.videos)
            && (forall i :: 0 <= i < |q'.videos| ==> IsQueued(q'.videos[i]))
  {
  }

  /** The update is not guarded by the row's current status: deciding on an
      id whose row is already banned overwrites it. */
  lemma NoPendingGuard(t: Store.Table, k: nat)
    requires k < |t| && t[k].status == Banned
    ensures Apply(t, HandleAction(Queue([], false), t[k].id, Approve, true, FetchFailed).1)[k].status == Approved
  {
  }

  /** Example: with A and B listed, approving A leaves only B. */
  lemma ApproveFirstOfTwo(va: Video, vb: Video)
    requires va.id != vb.id
    ensures HandleAction(Queue([va, vb], false), va.id, Approve, true, FetchFailed).0.videos == [vb]
  {
    assert [va, vb] == [va] + [vb];
    RemoveIdKeepsOrder([va], [vb], va.id);
    RemoveIdAbsent([vb], va.id);
    assert RemoveId([va], va.id) == [];
  }
}

=== FILE: player.dfy ===
/** One feed entry's playback unit (`VideoPlayer`): the component's own
    flags (`playing`, `muted`, `liked`, `downloading`) next to the two flags
    of the underlying video element it reads and writes (`paused`, `muted`).
    Promise outcomes from the host are event parameters. */
module Player {

  /** The component's state. */
  datatype Flags = Flags(playing: bool, muted: bool, liked: bool, downloading: bool)

  /** The video element's state as the component sees it. */
  datatype Element = Element(paused: bool, muted: bool)

  datatype Unit = Unit(flags: Flags, element: Element)

  /** How the host settled a `play()` request. */
  datatype PlayOutcome = Resolved | Rejected

  /** The component's flags agree with the element it drives. */
  predicate InSync(u: Unit) {
    u.flags.playing == !u.element.paused && u.flags.muted == u.element.muted
  }

  /** A freshly mounted unit: all four flags false, element paused and
      unmuted. */
  function Initial(): (u: Unit)
    ensures !u.flags.playing && !u.flags.muted && !u.flags.liked && !u.flags.downloading
    ensures InSync(u)
  {
    Unit(Flags(false, false, false, false), Element(true, false))
  }

  /** The `[isActive]` effect. Becoming active asks the element to play and
      sets `playing` from the outcome (a rejection is caught and only clears
      `playing`); becoming inactive pauses the element and clears `playing`. */
  function OnActiveChange(u: Unit, isActive: bool, play: PlayOutcome): (u': Unit)
    ensures isActive ==> (u'.flags.playing <==> play == Resolved)
    ensures isActive && play == Resolved ==> !u'.element.paused
    ensures !isActive ==> !u'.flags.playing && u'.element.paused
    ensures u'.flags.muted == u.flags.muted && u'.flags.liked == u.flags.liked
    ensures u'.flags.downloading == u.flags.downloading && u'.element.muted == u.element.muted
    ensures InSync(u) ==> InSync(u')
  {
    if isActive then
      match play
      case Resolved => u.(flags := u.flags.(playing := true), element := u.element.(paused := false))
      // A refused play() leaves the element paused (an element that was
      // already playing would have resolved).
      case Rejected => u.(flags := u.flags.(playing := false), element := u.element.(paused := true))
    else
      u.(flags := u.flags.(playing := false), element := u.element.(paused := true))
  }

  /** `togglePlay`, a tap on the video. A paused element is asked to play
      and `playing` is set true without waiting for the outcome; a playing
      element is paused. */
  function TogglePlay(u: Unit, play: PlayOutcome): (u': Unit)
    ensures u'.flags.playing == u.element.paused
    ensures u.element.paused && play == Resolved ==> !u'.element.paused
    ensures !u.element.paused ==> u'.element.paused
    ensures u'.flags.muted == u.flags.muted && u'.flags.liked == u.flags.liked
    ensures u'.flags.downloading == u.flags.downloading && u'.element.muted == u.element.muted
  {
    if u.element.paused then
      u.(flags := u.flags.(playing := true),
         element := u.element.(paused := play == Rejected))
    else
      u.(flags := u.flags.(playing := false), element := u.element.(paused := true))
  }

  /** When the element honours the request, a tap keeps the unit in sync
      and two taps give back the unit they started from. */
  lemma TogglePlayTwice(u: Unit)
    requires InSync(u)
    ensures InSync(TogglePlay(u, Resolved))
    ensures TogglePlay(TogglePlay(u, Resolved), Resolved) == u
    ensures TogglePlay(u, Resolved).flags.playing == !u.flags.playing
  {
  }

  /** If the host refuses a tap-initiated `play()`, the component still
      shows `playing` while the element stays paused. */
  lemma TapRejectedLeavesOutOfSync(u: Unit)
    requires u.element.paused
    ensures TogglePlay(u, Rejected).flags.playing && TogglePlay(u, Rejected).element.paused
    ensures !InSync(TogglePlay(u, Rejected))
  {
  }

  /** `toggleMute`: flips the element's muted flag and copies it into the
      component; playback is untouched. */
  function ToggleMute(u: Unit): (u': Unit)
    ensures u'.element.muted == !u.element.muted && u'.flags.muted == u'.element.muted
    ensures u'.flags.playing == u.flags.playing && u'.element.paused == u.element.paused
    ensures u'.flags.liked == u.flags.liked && u'.flags.downloading == u.flags.downloading
    ensures InSync(u) ==> InSync(u')
  {
    var m := !u.element.muted;
    u.(flags := u.flags.(muted := m), element := u.element.(muted := m))
  }

  /** Muting twice restores the unit. */
  lemma ToggleMuteTwice(u: Unit)
    requires InSync(u)
    ensures ToggleMute(ToggleMute(u)) == u
  {
  }

  /** The heart button: flips the local `liked` flag only. */
  function ToggleLike(u: Unit): (u': Unit)
    ensures u'.flags.liked == !u.flags.liked
    ensures u'.flags.playing == u.flags.playing && u'.flags.muted == u.flags.muted
    ensures u'.flags.downloading == u.flags.downloading && u'.element == u.element
  {
    u.(flags := u.flags.(liked := !u.flags.liked))
  }

  /** The number shown under the heart: the stored count plus one while the
      viewer has liked the video in this session. */
  function DisplayedLikes(likesCount: nat, u: Unit): (n: nat)
    ensures n == likesCount || n == likesCount + 1
    ensures n == likesCount + 1 <==> u.flags.liked
  {
    likesCount + (if u.flags.liked then 1 else 0)
  }

  /** Liking twice restores both the unit and the displayed count; liking
      once moves the displayed count by exactly one. */
  lemma LikeTwiceRestores(likesCount: nat, u: Unit)
    ensures ToggleLike(ToggleLike(u)) == u
    ensures DisplayedLikes(likesCount, ToggleLike(ToggleLike(u))) == DisplayedLikes(likesCount, u)
    ensures DisplayedLikes(likesCount, ToggleLike(u)) == if u.flags.liked then likesCount else likesCount + 1
  {
  }

  /** The play icon overlay is shown exactly when the unit is not playing. */
  predicate ShowsPlayOverlay(u: Unit) {
    !u.flags.playing
  }

  /** A deactivated unit always shows the overlay; an activated one shows it
      exactly when autoplay was refused. */
  lemma OverlayAfterActivation(u: Unit, isActive: bool, play: PlayOutcome)
    ensures !isActive ==> ShowsPlayOverlay(OnActiveChange(u, isActive, play))
    ensures isActive ==> (ShowsPlayOverlay(OnActiveChange(u, isActive, play)) <==> play == Rejected)
  {
  }

  const DownloadPrefix: string := "devotional-"
  const DownloadSuffix: string := ".mp4"
  const DefaultTitle: string := "video"

  /** The saved file's name: `devotional-<title or "video">.mp4`. */
  function DownloadName(title: string): (name: string)
    ensures |name| == |DownloadPrefix| + (if title == "" then |DefaultTitle| else |title|) + |DownloadSuffix|
    ensures name[..|DownloadPrefix|] == DownloadPrefix
    ensures name[|name| - |DownloadSuffix|..] == DownloadSuffix
  {
    DownloadPrefix + (if title == "" then DefaultTitle else title) + DownloadSuffix
  }

  /** The part of a download name between the fixed prefix and suffix. */
  function NamedTitle(name: string): string
    requires |name| >= |DownloadPrefix| + |DownloadSuffix|
  {
    name[|DownloadPrefix|..|name| - |DownloadSuffix|]
  }

  /** The title can be read back from the download name; an empty title
      reads back as "video". */
  lemma DownloadNameRoundTrip(title: string)
    ensures NamedTitle(DownloadName(title)) == if title == "" then DefaultTitle else title
  {
    var t := if title == "" then DefaultTitle else title;
    assert DownloadName(title) == DownloadPrefix + t + DownloadSuffix;
    assert NamedTitle(DownloadName(title)) == (DownloadPrefix + t + DownloadSuffix)[|DownloadPrefix|..|DownloadPrefix| + |t|];
  }

  /** After a tap the element honours, the overlay appears exactly when the
      unit was playing before the tap: a tap on the overlay hides it and a
      tap on a playing video shows it. */
  lemma OverlayAfterTap(u: Unit)
    requires InSync(u)
    ensures ShowsPlayOverlay(TogglePlay(u, Resolved)) <==> !ShowsPlayOverlay(u)
  {
  }

  /** How `handleDownload` ended. */
  datatype DownloadOutcome = Saved(fileName: string) | Failed

  /** `handleDownload` up to its first await: `downloading` is set. The
      button is disabled while a download runs, so a second click does
      nothing. */
  function BeginDownload(u: Unit): (u': Unit)
    ensures u'.flags.downloading
    ensures u.flags.downloading ==> u' == u
    ensures u'.flags.playing == u.flags.playing && u'.flags.muted == u.flags.muted
    ensures u'.flags.liked == u.flags.liked && u'.element == u.element
  {
    if u.flags.downloading then u else u.(flags := u.flags.(downloading := true))
  }

  /** The rest of `handleDownload`: the fetch either succeeds and the file
      is offered under `DownloadName(title)`, or fails and is reported; in
      both cases `downloading` is cleared and playback is untouched. */
  function FinishDownload(u: Unit, title: string, fetchOk: bool): (r: (Unit, DownloadOutcome))
    ensures !r.0.flags.downloading
    ensures r.0.flags.playing == u.flags.playing && r.0.flags.muted == u.flags.muted
    ensures r.0.flags.liked == u.flags.liked && r.0.element == u.element
    ensures fetchOk <==> r.1.Saved?
    ensures r.1.Saved? ==> r.1.fileName == DownloadName(title)
    ensures r.1.Saved? ==> |r.1.fileName| >= |DownloadPrefix| + |DownloadSuffix|
    ensures r.1.Saved? ==> NamedTitle(r.1.fileName) == (if title == "" then DefaultTitle else title)
  {
    DownloadNameRoundTrip(title);
    var u' := u.(flags := u.flags.(downloading := false));
    if fetchOk then (u', Saved(DownloadName(title))) else (u', Failed)
  }

  /** A whole download leaves the unit as it was before the click. */
  lemma DownloadRestoresUnit(u: Unit, title: string, fetchOk: bool)
    requires !u.flags.downloading
    ensures FinishDownload(BeginDownload(u), title, fetchOk).0 == u
  {
  }
}

=== FILE: store.dfy ===
/** The content store as the components see it: a table of `videos` rows
    with the three operations they use -- select by status ordered by
    `created_at` descending, update the status of an id, and insert a new
    row. The store's own implementation is not part of this model; `Query`
    is a reference definition of what a select returns. */
module Store {
  import opened Common
  import opened Videos

  type Table = seq<Video>

  /** Places `v` into a newest-first sequence. */
  function InsertByTime(v: Video, s: seq<Video>): (r: seq<Video>)
    requires NewestFirst(s)
    ensures NewestFirst(r)
    ensures multiset(r) == multiset(s) + multiset{v}
    ensures |r| == |s| + 1
  {
    if |s| == 0 || v.createdAt >= s[0].createdAt then [v] + s
    else
      var rest := InsertByTime(v, s[1..]);
      assert s == [s[0]] + s[1..];
      HeadPrecedesAll(s[0], s[1..], v, rest);
      [s[0]] + rest
  }

  /** A head no older than every row of `tail` and than `v` may precede any
      arrangement of `tail` plus `v`. */
  lemma HeadPrecedesAll(head: Video, tail: seq<Video>, v: Video, rest: seq<Video>)
    requires NewestFirst([head] + tail) && v.createdAt <= head.createdAt
    requires NewestFirst(rest) && multiset(rest) == multiset(tail) + multiset{v}
    ensures NewestFirst([head] + rest)
  {
    forall k | 0 <= k < |rest| ensures head.createdAt >= rest[k].createdAt {
      assert rest[k] in multiset(tail) + multiset{v};
      if rest[k] != v {
        assert rest[k] in multiset(tail);
        var m :| 0 <= m < |tail| && tail[m] == rest[k];
        var ht := [head] + tail;
        assert ht[0] == head && ht[m + 1] == rest[k];
        assert ht[0].createdAt >= ht[m + 1].createdAt;
      }
    }
    var r := [head] + rest;
    forall i, j | 0 <= i < j < |r| ensures r[i].createdAt >= r[j].createdAt {
      if i > 0 {
        assert r[i] == rest[i - 1] && r[j] == rest[j - 1];
      } else {
        assert r[j] == rest[j - 1];
      }
    }
  }

  /** Orders rows newest first, by descending creation time.
      The store's order among rows with equal times is not specified; any
      newest-first permutation is an acceptable answer (see `IsAnswer`). */
  function SortNewestFirst(s: seq<Video>): (r: seq<Video>)
    ensures NewestFirst(r)
    ensures multiset(r) == multiset(s)
    ensures |r| == |s|
  {
    if |s| == 0 then []
    else
      assert s == [s[0]] + s[1..];
      InsertByTime(s[0], SortNewestFirst(s[1..]))
  }

  /** What a select by status, ordered by descending creation time, may return:
      exactly the rows with that status, each as often as stored, newest
      first. */
  ghost predicate IsAnswer(t: Table, st: Status, rows: seq<Video>) {
    && multiset(rows) == multiset(Filter(t, HasStatus(st)))
    && NewestFirst(rows)
  }

  /** Two sequences with the same multiset hold the same elements. */
  lemma SameElements(a: seq<Video>, b: seq<Video>, v: Video)
    requires multiset(a) == multiset(b) && v in a
    ensures v in b
  {
    assert v in multiset(a);
  }

  /** The reference select. */
  function Query(t: Table, st: Status): (rows: seq<Video>)
    ensures IsAnswer(t, st, rows)
    ensures forall i :: 0 <= i < |rows| ==> rows[i].status == st && rows[i] in t
    ensures forall i :: 0 <= i < |t| && t[i].status == st ==> t[i] in rows
  {
    var kept := Filter(t, HasStatus(st));
    var rows := SortNewestFirst(kept);
    assert forall i :: 0 <= i < |kept| ==> kept[i].status == st && kept[i] in t by {
      forall i | 0 <= i < |kept| ensures kept[i].status == st && kept[i] in t {
        assert HasStatus(st)(kept[i]);
      }
    }
    assert forall i :: 0 <= i < |t| && t[i].status == st ==> t[i] in kept by {
      forall i | 0 <= i < |t| && t[i].status == st ensures t[i] in kept {
        assert HasStatus(st)(t[i]);
      }
    }
    ReorderedSelection(t, st, kept, rows);
    rows
  }

  /** A reordering of exactly the rows of `t` with status `st` still holds
      exactly those rows. */
  lemma ReorderedSelection(t: Table, st: Status, kept: seq<Video>, rows: seq<Video>)
    requires multiset(rows) == multiset(kept)
    requires forall i :: 0 <= i < |kept| ==> kept[i].status == st && kept[i] in t
    requires forall i :: 0 <= i < |t| && t[i].status == st ==> t[i] in kept
    ensures forall i :: 0 <= i < |rows| ==> rows[i].status == st && rows[i] in t
    ensures forall i :: 0 <= i < |t| && t[i].status == st ==> t[i] in rows
  {
    forall i | 0 <= i < |rows| ensures rows[i].status == st && rows[i] in t {
      SameElements(rows, kept, rows[i]);
      var k :| 0 <= k < |kept| && kept[k] == rows[i];
    }
    forall i | 0 <= i < |t| && t[i].status == st ensures t[i] in rows {
      SameElements(kept, rows, t[i]);
    }
  }

  /** The status update by id: every row with that id gets the new
      status, whatever its current status -- there is no compare-and-set. */
  function UpdateStatus(t: Table, id: string, st: Status): (t': Table)
    ensures |t'| == |t|
    ensures forall i :: 0 <= i < |t| && t[i].id == id ==> t'[i] == t[i].(status := st)
    ensures forall i :: 0 <= i < |t| && t[i].id != id ==> t'[i] == t[i]
  {
    seq(|t|, i requires 0 <= i < |t| => if t[i].id == id then t[i].(status := st) else t[i])
  }

  /** A new row; the store assigns `id` and `createdAt`, and the like count
      starts at 0. */
  datatype Draft = Draft(
    ownerId: string,
    title: string,
    description: string,
    videoUrl: string,
    status: Status)

  /** Inserting a draft, with the store-assigned id and time as parameters. */
  function Insert(t: Table, d: Draft, id: string, createdAt: nat): (t': Table)
    ensures |t'| == |t| + 1 && t'[..|t|] == t
    ensures t'[|t|].id == id && t'[|t|].ownerId == d.ownerId
    ensures t'[|t|].status == d.status && t'[|t|].videoUrl == d.videoUrl
    ensures t'[|t|].title == d.title && t'[|t|].description == d.description
    ensures t'[|t|].createdAt == createdAt && t'[|t|].likesCount == 0
  {
    t + [Video(id, d.ownerId, d.videoUrl, d.title, d.description, d.status, createdAt, 0)]
  }

  /** After an update of `id` to a status other than `st`, a select by `st`
      no longer returns any row with that id. */
  lemma {:induction false} UpdateLeavesStatusView(t: Table, id: string, st: Status, other: Status)
    requires other != st
    ensures forall i :: 0 <= i < |Query(UpdateStatus(t, id, other), st)| ==>
              Query(UpdateStatus(t, id, other), st)[i].id != id
  {
    var t' := UpdateStatus(t, id, other);
    NoRowOfIdInStatus(t', Query(t', st), id, st);
  }

  /** Rows drawn from a table where `id` never has status `st`, all with
      status `st`, never carry `id`. */
  lemma NoRowOfIdInStatus(t: Table, rows: seq<Video>, id: string, st: Status)
    requires forall k :: 0 <= k < |t| && t[k].id == id ==> t[k].status != st
    requires forall i :: 0 <= i < |rows| ==> rows[i].status == st && rows[i] in t
    ensures forall i :: 0 <= i < |rows| ==> rows[i].id != id
  {
    forall i | 0 <= i < |rows| ensures rows[i].id != id {
      var k :| 0 <= k < |t| && t[k] == rows[i];
    }
  }

  /** An update of `id` leaves the select answer's rows with other ids in
      place: every row with a different id and status `st` is still returned. */
  lemma UpdateKeepsOthers(t: Table, id: string, st: Status, other: Status)
    ensures forall i :: 0 <= i < |t| && t[i].id != id && t[i].status == st ==>
              t[i] in Query(UpdateStatus(t, id, other), st)
  {
    var t' := UpdateStatus(t, id, other);
    forall i | 0 <= i < |t| && t[i].id != id && t[i].status == st
      ensures t[i] in Query(t', st)
    {
      assert t'[i] == t[i];
    }
  }
}

=== FILE: textlimit.dfy ===
/** The length limit of a text input: `maxLength` counts UTF-16 code units,
    and the browser keeps the longest run of whole leading characters that
    fits. */
module TextLimit {

  /** The UTF-16 code units of one character: a surrogate pair above
      U+FFFF, a single unit otherwise. */
  function CodeUnits(c: char): nat {
    if c as int >= 0x1_0000 then 2 else 1
  }

  /** The length a `maxLength` limit measures: UTF-16 code units, not
      characters. */
  function Utf16Length(s: string): (n: nat)
    ensures |s| <= n <= 2 * |s|
  {
    if |s| == 0 then 0 else Utf16Length(s[..|s| - 1]) + CodeUnits(s[|s| - 1])
  }

  /** One more character adds its code units. */
  lemma Utf16LengthStep(s: string, k: nat)
    requires k < |s|
    ensures Utf16Length(s[..k + 1]) == Utf16Length(s[..k]) + CodeUnits(s[k])
  {
    assert s[..k + 1][..k] == s[..k];
  }

  /** A longer prefix never measures less. */
  lemma {:induction false} Utf16LengthGrows(s: string, i: nat, j: nat)
    requires i <= j <= |s|
    ensures Utf16Length(s[..i]) <= Utf16Length(s[..j])
    decreases j - i
  {
    if i < j {
      Utf16LengthGrows(s, i, j - 1);
      Utf16LengthStep(s, j - 1);
    }
  }

  /** Every character lies in the Basic Multilingual Plane. */
  predicate InBmp(s: string) {
    forall i :: 0 <= i < |s| ==> s[i] as int < 0x1_0000
  }

  lemma BmpPrefix(s: string, k: nat)
    requires InBmp(s) && k <= |s|
    ensures InBmp(s[..k])
  {
    forall i | 0 <= i < k ensures s[..k][i] as int < 0x1_0000 {
      assert s[..k][i] == s[i];
    }
  }

  /** Text inside the Basic Multilingual Plane measures its character
      count. */
  lemma {:induction false} Utf16LengthOfBmp(s: string)
    requires InBmp(s)
    ensures Utf16Length(s) == |s|
  {
    if |s| > 0 {
      BmpPrefix(s, |s| - 1);
      Utf16LengthOfBmp(s[..|s| - 1]);
    }
  }

  /** What a `maxLength` input keeps of what was typed: the longest run of
      whole leading characters that fits in `limit` code units. */
  function Cap(typed: string, limit: nat): (kept: string)
    ensures Utf16Length(kept) <= limit && |kept| <= limit
    ensures |kept| <= |typed| && kept == typed[..|kept|]
    ensures Utf16Length(typed) <= limit ==> kept == typed
    ensures |kept| < |typed| ==> Utf16Length(typed[..|kept| + 1]) > limit
    decreases |typed|
  {
    if Utf16Length(typed) <= limit then typed
    else
      var init := typed[..|typed| - 1];
      var kept := Cap(init, limit);
      assert init[..|kept|] == typed[..|kept|];
      if |kept| < |init| then
        assert init[..|kept| + 1] == typed[..|kept| + 1];
        kept
      else
        assert typed[..|kept| + 1] == typed;
        kept
  }

  /** No longer prefix of the typed text fits either. */
  lemma CapIsLongest(typed: string, limit: nat, j: nat)
    requires |Cap(typed, limit)| < j <= |typed|
    ensures Utf16Length(typed[..j]) > limit
  {
    Utf16LengthGrows(typed, |Cap(typed, limit)| + 1, j);
  }

  /** For text inside the Basic Multilingual Plane, code units and
      characters agree, so the limit keeps the first `limit` characters. */
  lemma CapOnBmpText(typed: string, limit: nat)
    requires InBmp(typed)
    ensures Cap(typed, limit) == if |typed| <= limit then typed else typed[..limit]
  {
    var kept := Cap(typed, limit);
    if |typed| <= limit {
      assert Utf16Length(typed) <= limit by {
        Utf16LengthOfBmp(typed);
      }
    } else {
      var n := |kept|;
      assert n >= limit by {
        BmpPrefix(typed, n + 1);
        Utf16LengthOfBmp(typed[..n + 1]);
      }
    }
  }

  /** Text of characters above U+FFFF measures twice its character count. */
  lemma {:induction false} EmojiLength(s: string)
    requires forall i :: 0 <= i < |s| ==> s[i] == '🙏'
    ensures Utf16Length(s) == 2 * |s|
  {
    if |s| > 0 {
      EmojiLength(s[..|s| - 1]);
    }
  }
}

=== FILE: upload.dfy ===
/** The upload page: the file-size gate on selection, the length limits of
    the two text inputs, and the submit sequence -- check the user, upload
    the file under `<user id>/<random>.<extension>`, look up its public URL,
    insert a `pending` row -- which stops at the first failing step. */
module Upload {
  import opened Common
  import opened Videos
  import Store
  import opened TextLimit

  /** 50 MiB, the largest file the page accepts. */
  const MaxFileBytes: nat := 50 * 1024 * 1024
  /** The `maxLength` of the title and description inputs, in UTF-16 code
      units. */
  const MaxTitleChars: nat := 50
  const MaxDescriptionChars: nat := 200

  const TooLargeMessage: string := "File size too large. Max 50MB."
  const NotLoggedInMessage: string := "You must be logged in to upload."
  const FallbackMessage: string := "An error occurred during upload."

  datatype FileInfo = FileInfo(name: string, size: nat)

  datatype Form = Form(
    file: Option<FileInfo>,
    title: string,
    description: string,
    uploading: bool,
    error: Option<string>)

  function InitialForm(): (f: Form)
    ensures f.file.None? && f.title == "" && f.description == ""
    ensures !f.uploading && f.error.None?
    ensures !CanSubmit(f)
  {
    Form(None, "", "", false, None)
  }

  /** `handleFileChange`: no file picked changes nothing; a file over the
      limit sets the error and keeps whatever file was chosen before; any
      other file is taken and the error cleared. */
  function SelectFile(f: Form, picked: Option<FileInfo>): (f': Form)
    ensures picked.None? ==> f' == f
    ensures picked.Some? && picked.value.size > MaxFileBytes ==>
              f'.file == f.file && f'.error == Some(TooLargeMessage)
    ensures picked.Some? && picked.value.size <= MaxFileBytes ==>
              f'.file == picked && f'.error.None?
    ensures f'.title == f.title && f'.description == f.description && f'.uploading == f.uploading
  {
    match picked
    case None => f
    case Some(file) =>
      if file.size > MaxFileBytes then f.(error := Some(TooLargeMessage))
      else f.(file := Some(file), error := None)
  }

  /** A chosen file is never over the limit, whatever was picked. */
  lemma SelectedFileWithinLimit(f: Form, picked: Option<FileInfo>)
    requires f.file.Some? ==> f.file.value.size <= MaxFileBytes
    ensures SelectFile(f, picked).file.Some? ==> SelectFile(f, picked).file.value.size <= MaxFileBytes
  {
  }

  /** Each character above U+FFFF counts twice: a title of 26 folded-hands
      emoji (52 code units) keeps only 25 of them. */
  lemma EmojiTitleKeepsTwentyFive(f: Form)
    ensures EditTitle(f, seq(26, _ => '🙏')).title == seq(25, _ => '🙏')
  {
    var typed := seq(26, _ => '🙏');
    var kept := EditTitle(f, typed).title;
    EmojiLength(typed);
    EmojiLength(kept);
    if |kept| < |typed| {
      EmojiLength(typed[..|kept| + 1]);
    }
    assert kept == typed[..25];
  }

  /** Typing a title changes only the title; the file, description, upload
      flag and error stay. */
  function EditTitle(f: Form, typed: string): (f': Form)
    ensures f' == f.(title := f'.title)
    ensures Utf16Length(f'.title) <= MaxTitleChars && |f'.title| <= |typed| && f'.title == typed[..|f'.title|]
    ensures Utf16Length(typed) <= MaxTitleChars ==> f'.title == typed
    ensures |f'.title| < |typed| ==> Utf16Length(typed[..|f'.title| + 1]) > MaxTitleChars
  {
    f.(title := Cap(typed, MaxTitleChars))
  }

  /** Typing a description changes only the description. */
  function EditDescription(f: Form, typed: string): (f': Form)
    ensures f' == f.(description := f'.description)
    ensures Utf16Length(f'.description) <= MaxDescriptionChars && |f'.description| <= |typed|
    ensures f'.description == typed[..|f'.description|]
    ensures Utf16Length(typed) <= MaxDescriptionChars ==> f'.description == typed
    ensures |f'.description| < |typed| ==> Utf16Length(typed[..|f'.description| + 1]) > MaxDescriptionChars
  {
    f.(description := Cap(typed, MaxDescriptionChars))
  }

  /** The submit button is enabled only with a file and no upload running. */
  predicate CanSubmit(f: Form) {
    !f.uploading && f.file.Some?
  }

  /** The file extension: the text after the last '.', or the whole
      name when it has none. */
  function Extension(name: string): (ext: string)
    ensures '.' !in ext
    ensures |ext| <= |name| && ext == name[|name| - |ext|..]
    ensures '.' !in name ==> ext == name
    ensures '.' in name ==> |ext| < |name| && name[|name| - |ext| - 1] == '.'
  {
    if |name| == 0 then ""
    else if name[|name| - 1] == '.' then ""
    else
      var init := name[..|name| - 1];
      assert name == init + [name[|name| - 1]];
      assert '.' in name ==> '.' in init;
      Extension(init) + [name[|name| - 1]]
  }

  /** The part of the name before the last '.'. */
  function Stem(name: string): string
    requires '.' in name
  {
    name[..|name| - |Extension(name)| - 1]
  }

  /** A name with a '.' splits into its stem, the last '.', and its
      extension. */
  lemma {:induction false} StemDotExtension(name: string)
    requires '.' in name
    ensures name == Stem(name) + "." + Extension(name)
  {
    var e := Extension(name);
    var k := |name| - |e| - 1;
    assert name[k] == '.' && name[k + 1..] == e;
    assert Stem(name) == name[..k];
    SplitAtDot(name, k);
  }

  /** A text with a '.' at position `k` is what comes before it, the '.',
      and what comes after it. */
  lemma SplitAtDot(name: string, k: nat)
    requires k < |name| && name[k] == '.'
    ensures name == name[..k] + "." + name[k + 1..]
  {
    assert name == name[..k] + name[k..];
    assert name[k..] == [name[k]] + name[k + 1..];
  }

  /** Appending a '.' and a dot-free text makes that text the extension. */
  lemma {:induction false} ExtensionAfterDot(prefix: string, ext: string)
    requires '.' !in ext
    ensures Extension(prefix + "." + ext) == ext
  {
    var s := prefix + "." + ext;
    if |ext| > 0 {
      var init := ext[..|ext| - 1];
      assert s[..|s| - 1] == prefix + "." + init;
      assert s[|s| - 1] == ext[|ext| - 1];
      ExtensionAfterDot(prefix, init);
      assert ext == init + [ext[|ext| - 1]];
    } else {
      assert s[|s| - 1] == '.';
    }
  }

  /** The object path: user id, '/', random text, '.', extension. `random`
      stands for the text of the random number the page draws. */
  function StoragePath(userId: string, random: string, ext: string): (path: string)
    ensures |path| > |userId| && path[..|userId| + 1] == userId + "/"
  {
    userId + "/" + random + "." + ext
  }

  /** Two different random draws give two different paths, so uploads of
      the same file by the same user do not overwrite each other. */
  lemma DistinctDrawsDistinctPaths(userId: string, r1: string, r2: string, ext: string)
    requires r1 != r2
    ensures StoragePath(userId, r1, ext) != StoragePath(userId, r2, ext)
  {
    var p1, p2 := StoragePath(userId, r1, ext), StoragePath(userId, r2, ext);
    var k := |userId| + 1;
    if |r1| == |r2| {
      assert p1[k..k + |r1|] == r1;
      assert p2[k..k + |r2|] == r2;
    } else {
      assert |p1| != |p2|;
    }
  }

  /** The path keeps the file's extension: reading the extension of the
      storage path gives back the one taken from the file name. */
  lemma PathKeepsExtension(userId: string, random: string, fileName: string)
    ensures Extension(StoragePath(userId, random, Extension(fileName))) == Extension(fileName)
  {
    ExtensionAfterDot(userId + "/" + random, Extension(fileName));
  }

  /** The owner can be read back from the path: it is the text before the
      first '/', for an id without '/'. */
  lemma PathStartsWithOwner(userId: string, random: string, ext: string)
    requires '/' !in userId
    ensures var path := StoragePath(userId, random, ext);
            path[|userId|] == '/' && forall i :: 0 <= i < |userId| ==> path[i] != '/'
  {
  }

  /** The store calls a submit makes, in order. */
  datatype Call = StorageUpload(path: string) | InsertRow(draft: Store.Draft)

  /** What the collaborators answer: the signed-in user, the random text,
      the upload's error (with its message), the public URL of a path and the
      insert's error. */
  datatype Env = Env(
    user: Option<string>,
    random: string,
    uploadError: Option<string>,
    publicUrl: string -> string,
    insertError: Option<string>)

  /** The message shown for a thrown error: its own, or a fallback when
      empty. */
  function Message(m: string): (shown: string)
    ensures |shown| > 0
    ensures m != "" ==> shown == m
    ensures m == "" ==> shown == FallbackMessage
  {
    if m != "" then m else FallbackMessage
  }

  /** The outcome of a submit: the form afterwards, the store calls made,
      and whether the page went back to the feed. */
  datatype Run = Run(form: Form, calls: seq<Call>, wentHome: bool)

  /** `handleUpload`. */
  function HandleUpload(f: Form, env: Env): (r: Run)
    ensures f.file.None? ==> r == Run(f, [], false)
    ensures !r.form.uploading || f.file.None?
    ensures r.form.file == f.file && r.form.title == f.title && r.form.description == f.description
    ensures r.wentHome <==> r.form.error.None? && f.file.Some?
    ensures |r.calls| <= 2
    ensures f.file.Some? && env.user.None? ==> r.calls == [] && r.form.error == Some(NotLoggedInMessage)
    ensures |r.calls| > 0 ==> env.user.Some? && r.calls[0].StorageUpload?
    ensures |r.calls| == 2 ==> env.uploadError.None? && r.calls[1].InsertRow?
    ensures f.file.Some? ==> r.calls == Steps(f, f.file.value, env).1
    ensures f.file.Some? ==> (r.wentHome <==> Steps(f, f.file.value, env).0.None?)
    ensures f.file.Some? && Steps(f, f.file.value, env).0.Some? ==>
              r.form.error == Some(Message(Steps(f, f.file.value, env).0.value))
    ensures f.file.Some? && env.user.None? ==> !r.wentHome
    ensures f.file.Some? && env.user.Some? && env.uploadError.Some? ==>
              !r.wentHome && |r.calls| == 1 && r.form.error == Some(Message(env.uploadError.value))
    ensures f.file.Some? && env.user.Some? && env.uploadError.None? && env.insertError.Some? ==>
              !r.wentHome && |r.calls| == 2 && r.form.error == Some(Message(env.insertError.value))
    ensures f.file.Some? && env.user.Some? && env.uploadError.None? && env.insertError.None? ==>
              r.wentHome && |r.calls| == 2 && r.form.error.None?
  {
    match f.file
    case None => Run(f, [], false)
    case Some(file) =>
      var started := f.(uploading := true, error := None);
      var (err, calls) := Steps(f, file, env);
      var done := started.(uploading := false, error := if err.Some? then Some(Message(err.value)) else None);
      Run(done, calls, err.None?)
  }

  /** The storage path a submit of `file` uses. */
  function PathFor(env: Env, file: FileInfo): string
    requires env.user.Some?
  {
    StoragePath(env.user.value, env.random, Extension(file.name))
  }

  /** The row a submit of `file` inserts. */
  function DraftFor(f: Form, env: Env, file: FileInfo): Store.Draft
    requires env.user.Some?
  {
    Store.Draft(env.user.value, f.title, f.description, env.publicUrl(PathFor(env, file)), Pending)
  }

  /** The body of the `try` block: returns the error thrown, if any, and the
      store calls made before it. */
  function Steps(f: Form, file: FileInfo, env: Env): (r: (Option<string>, seq<Call>))
    ensures env.user.None? ==> r.0 == Some(NotLoggedInMessage) && r.1 == []
    ensures env.user.Some? ==> |r.1| >= 1 && r.1[0] == StorageUpload(PathFor(env, file))
    ensures env.user.Some? && env.uploadError.Some? ==> r.0 == env.uploadError && |r.1| == 1
    ensures env.user.Some? && env.uploadError.None? ==>
              |r.1| == 2 && r.1[1] == InsertRow(DraftFor(f, env, file)) && r.0 == env.insertError
  {
    match env.user
    case None => (Some(NotLoggedInMessage), [])
    case Some(uid) =>
      if env.uploadError.Some? then (env.uploadError, [StorageUpload(PathFor(env, file))])
      else (env.insertError, [StorageUpload(PathFor(env, file)), InsertRow(DraftFor(f, env, file))])
  }

  /** Every row a submit inserts is `pending`, owned by the signed-in user,
      points at the public URL of the uploaded path, and carries the form's
      text. */
  lemma InsertedRowIsPending(f: Form, env: Env)
    ensures forall i :: 0 <= i < |HandleUpload(f, env).calls| && HandleUpload(f, env).calls[i].InsertRow? ==>
              && env.user.Some? && f.file.Some?
              && HandleUpload(f, env).calls[i].draft.status == Pending
              && HandleUpload(f, env).calls[i].draft.ownerId == env.user.value
              && HandleUpload(f, env).calls[i].draft.videoUrl ==
                   env.publicUrl(StoragePath(env.user.value, env.random, Extension(f.file.value.name)))
              && HandleUpload(f, env).calls[i].draft.title == f.title
              && HandleUpload(f, env).calls[i].draft.description == f.description
  {
    var calls := HandleUpload(f, env).calls;
    UploadCalls(f, env);
    if f.file.Some? && env.user.Some? && env.uploadError.None? {
      var d := DraftFor(f, env, f.file.value);
      assert d.videoUrl == env.publicUrl(StoragePath(env.user.value, env.random, Extension(f.file.value.name)));
      forall i | 0 <= i < |calls| && calls[i].InsertRow? ensures calls[i].draft == d {
        assert i == 1;
      }
    } else {
      forall i | 0 <= i < |calls| ensures calls[i].StorageUpload? {
        assert i == 0;
      }
    }
  }

  /** The store calls of one submit, case by case. */
  lemma UploadCalls(f: Form, env: Env)
    ensures f.file.None? || env.user.None? ==> HandleUpload(f, env).calls == []
    ensures f.file.Some? && env.user.Some? && env.uploadError.Some? ==>
              HandleUpload(f, env).calls == [StorageUpload(PathFor(env, f.file.value))]
    ensures f.file.Some? && env.user.Some? && env.uploadError.None? ==>
              HandleUpload(f, env).calls ==
                [StorageUpload(PathFor(env, f.file.value)), InsertRow(DraftFor(f, env, f.file.value))]
  {
    if f.file.Some? {
      assert HandleUpload(f, env).calls == Steps(f, f.file.value, env).1;
    }
  }

  /** Re-entering a capped title or description keeps it: the kept text
      already fits, so capping is idempotent. */
  lemma EditIsIdempotent(f: Form, typed: string)
    ensures EditTitle(EditTitle(f, typed), EditTitle(f, typed).title) == EditTitle(f, typed)
    ensures EditDescription(EditDescription(f, typed), EditDescription(f, typed).description)
              == EditDescription(f, typed)
  {
  }

  /** The button is disabled on the fresh page and enabled again after every
      submit that had a file, whatever step failed. */
  lemma SubmitReenabledAfterRun(f: Form, env: Env)
    ensures !CanSubmit(InitialForm())
    ensures f.file.Some? ==> CanSubmit(HandleUpload(f, env).form)
  {
  }

  /** A failed step is always reported with a non-empty message, and the
      fallback text appears only for an error without its own message. */
  lemma FailureIsReported(f: Form, env: Env)
    requires f.file.Some? && !HandleUpload(f, env).wentHome
    ensures HandleUpload(f, env).form.error.Some?
    ensures |HandleUpload(f, env).form.error.value| > 0
    ensures env.user.Some? && env.uploadError.Some? && env.uploadError.value == "" ==>
              HandleUpload(f, env).form.error == Some(FallbackMessage)
  {
  }

  /** A freshly uploaded video reaches the moderation queue and not the
      public feed. */
  lemma UploadedVideoIsQueued(t: Store.Table, d: Store.Draft, id: string, createdAt: nat)
    requires d.status == Pending
    ensures Store.Insert(t, d, id, createdAt)[|t|] in Store.Query(Store.Insert(t, d, id, createdAt), Pending)
    ensures Store.Insert(t, d, id, createdAt)[|t|] !in Store.Query(Store.Insert(t, d, id, createdAt), Approved)
  {
  }
}

=== FILE: videos.dfy ===
/** The `videos` row shared by the feed, the moderation queue and the upload
    page, and the `status` column that gates where a row is shown. */
module Videos {
  import opened Common

  /** The three values the `status` column takes. */
  datatype Status = Pending | Approved | Banned

  /** The text stored in the `status` column. */
  function StatusName(s: Status): string {
    match s
    case Pending => "pending"
    case Approved => "approved"
    case Banned => "banned"
  }

  /** A stored video. `createdAt` is the store-assigned creation time (a
      timestamp; later is larger). `likesCount` is the stored counter. */
  datatype Video = Video(
    id: string,
    ownerId: string,
    videoUrl: string,
    title: string,
    description: string,
    status: Status,
    createdAt: nat,
    likesCount: nat)

  /** Feed order: newest first. */
  ghost predicate NewestFirst(vs: seq<Video>) {
    forall i, j :: 0 <= i < j < |vs| ==> vs[i].createdAt >= vs[j].createdAt
  }

  /** Shown in the public feed. */
  predicate IsPubliclyVisible(v: Video) {
    v.status == Approved
  }

  /** Shown in the moderation queue. */
  predicate IsQueued(v: Video) {
    v.status == Pending
  }

  /** "Has status `s`" as a reusable predicate value. */
  function HasStatus(s: Status): Video -> bool {
    (v: Video) => v.status == s
  }

  /** "Carries an id other than `id`" as a reusable predicate value. */
  function OtherThan(id: string): Video -> bool {
    (v: Video) => v.id != id
  }
}
